=== FILE: README.md ===
# Atlas.Orm identity map and record set, in Dafny

This project models two in-memory structures of the Atlas.Orm data mapper and proves properties of them.

- **The table identity map** (`Atlas\Orm\Table\IdentityMap`, module `Table` in `identity_map.dfy`). It maps each primary-key serial to the row registered last under it, and it refuses only a second registration of the same row instance (`Table.RegisterTwiceFails`, `Table.LaterRowWinsSerial`). A different instance with the same key values is accepted and keeps its own registration and snapshot. It also keeps the snapshot of each registered row that later updates are diffed against. It has three co-indexed stores: serial → row, row → serial and row → initial snapshot. A primary key is looked up through its *serial*. The serial is the key's values, converted to strings, joined by the separator `"|\x1F"` (a pipe and ASCII 31) and bracketed by that separator at both ends.
- **The mapper's record set** (`Atlas\Orm\Mapper\RecordSet`, module `Mapper` in `record_set.dfy`). This is an ordered, keyed collection that admits only `Record` objects. Apart from that check it behaves like a PHP array: assigning to an existing key overwrites in place, a `null` offset appends at the next free integer index, `unset` removes an entry, and iteration follows insertion order.

Supporting modules:
- `Wrappers` (`wrappers.dfy`) provides `Option` and `Result`. `None` stands for PHP's `false` from `getRow` and for the null a missing `offsetGet` key yields.
- `Exceptions` (`exceptions.dfy`) holds the kinds of `Atlas\Orm\Exception` these classes throw: `RowAlreadyMapped`, `RowNotMapped` and `InvalidType`.
- `Scalars` (`scalars.dfy`) models PHP scalars (null, bool, int, string) and the string conversion `implode` applies to them.

Modelling choices:
- A row instance is a handle (`RowId`) plus its current column map. Two `Row` values with the same handle are the same PHP object at different times, so `SplObjectStorage` becomes a map keyed by handle. The serial → row store holds handles, and `getRow` returns the handle of the registered instance.
- All operations are pure functions. A throwing call returns `Failure(...)`, and the caller keeps the old state, so "nothing changes on failure" holds by construction.
- `Table.Valid` is the identity map's class invariant and `Mapper.Valid` is the PHP array invariant (unique keys, next index beyond every integer key). The constructors establish them and every operation preserves them.
- `Record::getArrayCopy` is defined outside these files. `GetArrayCopy` therefore takes it as a function parameter `copy`.

The comment on `getSerial` (src/Table/IdentityMap.php:85-98) warns about the serial's limits, and the model states each warning as a lemma:
- Null, false and "" key values are conflated (`Table.SerialConflatesEmptyValues`).
- A value containing ASCII 31 can break lookups (`Table.UnitSeparatorInValueCollides`).
- The serial depends on the order of the values (`Table.SerialOrderSensitive`). The model also shows that order matters only when the swapped values have different string forms: `[1, "1"]` and `["1", 1]` share a serial (`Table.SerialOfMixedPair`), while `[1, 2]` and `[2, 1]` do not (`Table.SerialOfPermutedPair`).
- The model also shows that the empty key `[]` collides with `[""]` (`Table.EmptyKeyMatchesEmptyString`).

## Model

| member | source | states |
|---|---|---|
| `Scalars.ToPhpString` | src/Table/IdentityMap.php:89-93 | a key value converts to "" exactly when it is null, false or "" |
| `Scalars.NatToDecimal` | src/Table/IdentityMap.php:104 | an integer's decimal form is non-empty, all digits, with no leading zero |
| `Scalars.DecimalRoundTrip` | src/Table/IdentityMap.php:104 | reading the decimal form back gives the original number |
| `Scalars.IntToDecimal` | src/Table/IdentityMap.php:104 | an integer's string form is non-empty, starts with '-' exactly for negatives, and is otherwise all digits |
| `Scalars.IntToDecimalInjective` | src/Table/IdentityMap.php:104 | two integers have the same string form exactly when they are equal |
| `Table.Implode` | src/Table/IdentityMap.php:104 | "" for no pieces, the piece itself for one, and otherwise the first piece then the glue come first; followed by the glue it equals each piece followed by the glue (`Table.ImplodeThenSep`) |
| `Table.ImplodeThenSep` | src/Table/IdentityMap.php:104 | a non-empty list imploded with the separator and then followed by one more separator equals the concatenation of each piece followed by the separator |
| `Table.GetSerial` | src/Table/IdentityMap.php:101-105 | a serial starts and ends with the two-character separator |
| `Table.SerialOfSeven` | src/Table/IdentityMap.php:101-105 | the key `[7]` has the serial made of the separator, "7" and the separator again |
| `Table.SerialDeterminedByStrings` | src/Table/IdentityMap.php:101-105 | keys whose values have the same string forms in the same order get the same serial (determinism) |
| `Table.SerialConflatesEmptyValues` | src/Table/IdentityMap.php:89-93 | null, false and "" in the same position give identical serials |
| `Table.SerialInjective` | src/Table/IdentityMap.php:85-87 | for non-empty keys with no ASCII 31 in any value, serials are equal if and only if the values' string forms are equal position by position |
| `Table.SerialInjectiveOnIntegers` | src/Table/IdentityMap.php:85-93 | for integer keys of any length, serials are equal if and only if the keys are equal |
| `Table.LengthOfIntegerSerial` | src/Table/IdentityMap.php:101-105 | an integer key's serial is only four characters long when the key is empty |
| `Table.SerialOrderSensitive` | src/Table/IdentityMap.php:95-98 | swapping two values with different string forms changes the serial |
| `Table.SerialOfPermutedPair` | src/Table/IdentityMap.php:95-98 | `[1, 2]` and `[2, 1]` have different serials |
| `Table.SerialOfMixedPair` | src/Table/IdentityMap.php:95-104 | `[1, "1"]` and `["1", 1]` give the same serial, since both values read as "1" |
| `Table.UnitSeparatorInValueCollides` | src/Table/IdentityMap.php:85-87 | the one-value key made of "a", the separator and "b", and the two-value key `["a", "b"]` share a serial |
| `Table.EmptyKeyMatchesEmptyString` | src/Table/IdentityMap.php:101-105 | the empty key and the key `[""]` share a serial, because `implode` yields "" for both |
| `Table.Empty` | src/Table/IdentityMap.php:24-28 | a new map satisfies the invariant, has no rows, and every lookup finds nothing |
| `Table.HasRow` | src/Table/IdentityMap.php:54-57 | a row is present exactly when its instance is registered under some serial; under the invariant, exactly when it has a snapshot, and its serial is then in the lookup table |
| `Table.GetRow` | src/Table/IdentityMap.php:63-71 | a found row is registered under the key's serial; nothing is found exactly when no row is registered under it |
| `Table.FirstOccurrences` | src/Table/IdentityMap.php:39-42 | every kept column is a key column, every key column is kept, none twice, and an already distinct key is unchanged |
| `Table.FirstOccurrencesInFirstOrder` | src/Table/IdentityMap.php:39-42 | the kept columns appear in the order of their first appearance in the key |
| `Table.FirstOccurrencesExample` | src/Table/IdentityMap.php:39-42 | the key `["a", "b", "a"]` keeps the columns `["a", "b"]` |
| `Table.PrimaryValues` | src/Table/IdentityMap.php:39-42 | the key values are the row's values for the key columns, each repeated column taken once at its first position (`Table.FirstOccurrences`); with distinct key columns, exactly the key columns in order |
| `Table.SetRow` | src/Table/IdentityMap.php:33-48 | an already-registered instance fails with `RowAlreadyMapped`; otherwise the row becomes registered, its snapshot is the given one, and a lookup by its key values finds it; other rows' membership and snapshots, and lookups of other serials, are unchanged; the invariant is kept |
| `Table.GetInitial` | src/Table/IdentityMap.php:116-123 | fails with `RowNotMapped` exactly for unregistered rows |
| `Table.SetInitial` | src/Table/IdentityMap.php:107-114 | an unregistered row fails with `RowNotMapped`; otherwise its snapshot becomes its current columns, and both serial stores and every other snapshot are unchanged |
| `Table.RegisterTwiceFails` | src/Table/IdentityMap.php:35-37 | registering the same instance again fails, even after its column values changed |
| `Table.LaterRowWinsSerial` | src/Table/IdentityMap.php:39-45 | a second row with the same key values takes over the serial lookup; the first stays registered with its snapshot |
| `Table.SnapshotTracksOnlySetInitial` | src/Table/IdentityMap.php:45-47 | after a row's columns change, the snapshot still shows the registered values until `setInitial`, and then shows the changed values |
| `Table.RefreshScenario` | src/Table/IdentityMap.php:107-123 | register `{id: 1, name: "x"}` under `["id"]`, change `name` to "y", refresh: the lookup of `[1]` finds the row and the snapshot reads `{id: 1, name: "y"}` |
| `Mapper.KeyIndex` | src/Mapper/RecordSet.php:21-29 | a key is found at a position holding it, and is missing exactly when no entry holds it |
| `Mapper.Empty` | src/Mapper/RecordSet.php:14-19 | the empty set is valid, has count 0, is empty and holds no key |
| `Mapper.OffsetExists` | src/Mapper/RecordSet.php:21-24 | true exactly when some entry holds the key |
| `Mapper.OffsetGet` | src/Mapper/RecordSet.php:26-29 | a record is returned exactly when the key exists, and it is the record stored under that key |
| `Mapper.Store` | src/Mapper/RecordSet.php:46 | an existing key is overwritten in place with count and order unchanged; a new key is appended at the end; an integer key k moves the next index to the larger of its old value and k + 1, a string key leaves it; afterwards the key yields the record |
| `Mapper.OffsetSet` | src/Mapper/RecordSet.php:31-47 | a non-record fails with `InvalidType`, naming the received type or class; a null offset appends at the old next index, which then grows by one; any other offset stores under that key, and an integer offset k moves the next index to the larger of its old value and k + 1; validity is kept |
| `Mapper.OffsetUnset` | src/Mapper/RecordSet.php:49-52 | a missing key changes nothing; otherwise exactly that entry is removed, the rest keep their order, and the next index is kept |
| `Mapper.Count` | src/Mapper/RecordSet.php:54-57 | the count is the number of entries iteration visits; how it changes under append, assignment and unset is stated by `Mapper.AppendAddsOne`, `Mapper.SetThenGet` and `Mapper.UnsetRemovesKey` |
| `Mapper.IsEmpty` | src/Mapper/RecordSet.php:64-67 | the set is empty exactly when its count is 0 |
| `Mapper.GetIterator` | src/Mapper/RecordSet.php:59-62 | iteration visits every key once, each with the record `offsetGet` returns for it |
| `Mapper.CopyEntries` | src/Mapper/RecordSet.php:71-74 | each entry maps to its own copy under the same key and at the same position |
| `Mapper.GetArrayCopy` | src/Mapper/RecordSet.php:69-76 | the copy has the iteration's keys in iteration order, each with that record's array copy |
| `Mapper.SetAll` | src/Mapper/RecordSet.php:16-18 | succeeds exactly when every value is a record, and otherwise fails with the `InvalidType` of the first value that is not; fresh distinct keys are appended in order |
| `Mapper.SetAllNextIndex` | src/Mapper/RecordSet.php:16-18 | after storing the pairs, the next index is at least the starting one, beyond every integer key stored, and either the starting one or one past a stored integer key |
| `Mapper.FromArray` | src/Mapper/RecordSet.php:14-19 | construction succeeds exactly when every value is a record and then keeps the given keys, records and order, with the next index the larger of 0 and one past the largest integer key; otherwise it fails on the first value that is not a record |
| `Mapper.StoreLeavesOtherKeys` | src/Mapper/RecordSet.php:46 | assigning under one key leaves every other key's record unchanged |
| `Mapper.AppendAddsOne` | src/Mapper/RecordSet.php:41-44 | appending increases the count by exactly one, the old next index then yields the record, and other keys are unchanged |
| `Mapper.SetThenGet` | src/Mapper/RecordSet.php:46 | after an assignment the key yields the record; the count grows only for a new key; other keys are unchanged |
| `Mapper.TypeName` | src/Mapper/RecordSet.php:33-39 | the received type reported for a refused value is `gettype`'s name for a non-object and the class name for an object of another class |
| `Mapper.InvalidValueRefused` | src/Mapper/RecordSet.php:33-39 | a value that is not a record is refused with `InvalidType` whatever the offset |
| `Mapper.UnsetRemovesKey` | src/Mapper/RecordSet.php:49-52 | after an unset the key is absent, and the count dropped by one exactly when the key was present |
| `Mapper.UnsetLeavesOtherKeys` | src/Mapper/RecordSet.php:49-52 | an unset leaves every other key's record unchanged |
| `Mapper.EmptyArrayCopy` | src/Mapper/RecordSet.php:69-76 | the array copy of an empty set is empty |
| `Mapper.AppendAfterIntKey` | src/Mapper/RecordSet.php:41-46 | after an assignment under integer key k, the next append lands at the larger of the old next index and k + 1 |
| `Mapper.AppendAfterFive` | src/Mapper/RecordSet.php:14-19 | a set built from `[5 => a]` appends its next record under key 6 |
| `Mapper.IterationFollowsInsertion` | src/Mapper/RecordSet.php:59-62 | iteration visits a newly assigned key or an appended record last, and an unset drops that entry without moving the others |
| `Mapper.BuiltFromZeroOne` | src/Mapper/RecordSet.php:14-19 | a set built from `[0 => a, 1 => b]` holds `a` then `b` under keys 0 and 1, with next index 2 |
| `Mapper.AppendAfterConstruction` | src/Mapper/RecordSet.php:14-19 | a set built from `[0 => a, 1 => b]` appends its next record under key 2 |
| `Mapper.UnsetScenario` | src/Mapper/RecordSet.php:49-52 | building from `{0: a, 1: b}` and unsetting key 0 leaves one entry: `b` under key 1 |

## Left out

- `src/Table/TableSelect.php` is not part of this model. It forwards every fetch to the database connection and query object, which is I/O with no logic of its own.
- `src/Table/TableEvents.php` is not part of this model. All of its hook methods are empty.
- The internals of `SplObjectStorage` and `ArrayIterator`. They are replaced by maps keyed by row handle and by a sequence of entries.
- PHP floats, and PHP's conversion of floats to strings. `Scalar` covers null, bool, int and string only.
- PHP's normalisation of array keys (numeric strings, bools and floats to ints). Keys are taken as already normalised, and `offsetExists`/`offsetGet`/`offsetUnset` take a normalised key.
- The next-index rule for negative keys follows PHP before 8.3: the index starts at 0 and moves to `k + 1` only for an integer key `k` at or above it. The PHP 8.3 rule is not modelled.
- PHP strings are byte strings, while the model's `string` is a sequence of characters. Nothing here depends on the difference: the serial proofs look only at the positions of `'|'` and ASCII 31, which are single bytes.
- Integer width. `nextIndex` is unbounded, so the failed append at `PHP_INT_MAX` is not modelled.
- Exception message texts. Only the exception kind is modelled, plus the expected and received type for `InvalidType`.
- `Record::getArrayCopy` and the `Row` class are not part of this model. The copy is a function parameter. A column read goes straight to the row's column map.
- Table.SetRow: requires that the row has every primary-key column unless it is already registered. Reading a missing column fails inside `Row`, which is not part of this model.
- Table.SetRow: requires the identity map invariant `Table.Valid`, and so do `GetInitial` and `SetInitial`. The constructor establishes it and every operation keeps it.
- Table.SerialInjective: stated for non-empty keys only. `Table.EmptyKeyMatchesEmptyString` shows that the empty key collides with `[""]`.
- Mapper.OffsetSet: the append and overwrite placement is stated for valid sets only (unique keys, next index beyond every integer key). Every PHP array satisfies that.
- Mapper.OffsetUnset: which position is removed is stated for valid sets only, for the same reason.
- Mapper.Store: the in-place overwrite is stated for valid sets only, for the same reason.
- Mapper.FromArray: requires distinct keys, as every PHP array has.
- Changing a registered row's primary-key values does not re-index it. The source does not re-index either, and the model inherits this.

=== FILE: exceptions.dfy ===
/** The kinds of `Atlas\Orm\Exception` raised by the identity map and the record set. */
module Exceptions {

  datatype Exception =
    /** `setRow` was given a row instance that is already registered. */
    | RowAlreadyMapped
    /** `setInitial` or `getInitial` was given a row instance that was never registered. */
    | RowNotMapped
    /** A record set was offered something other than a `Record`; carries the class
        that was expected and the type or class that was received. */
    | InvalidType(expected: string, actual: string)
}

=== FILE: identity_map.dfy ===
/**
 * The identity map of a table (`Atlas\Orm\Table\IdentityMap`): each primary-key
 * serial leads to the row instance registered last under it, and each registered
 * instance keeps the snapshot that later updates are diffed against.
 *
 * Row instances are modelled by a handle (`RowId`) together with the row's current
 * column values; two `Row` values with the same handle are the same PHP object seen
 * at different times. The three co-indexed stores of the PHP class keep their shape:
 * serial -> row, row -> serial and row -> initial snapshot.
 */
module Table {
  import opened Wrappers
  import opened Exceptions
  import opened Scalars

  // ---------------------------------------------------------------------------
  // Serial encoding of a primary key
  // ---------------------------------------------------------------------------

  /** ASCII 31, the "unit separator" control character. */
  const UnitSeparator: char := '\U{1F}'

  /** The serial separator: a visible pipe followed by the unit separator. */
  const Sep: string := ['|', UnitSeparator]

  /** PHP's `implode`: the pieces joined by `glue`, and "" when there are none. */
  function Implode(glue: string, pieces: seq<string>): (r: string)
    ensures |pieces| == 0 ==> r == ""
    ensures |pieces| == 1 ==> r == pieces[0]
    ensures |pieces| > 1 ==> pieces[0] + glue <= r
  {
    if |pieces| == 0 then ""
    else if |pieces| == 1 then pieces[0]
    else pieces[0] + glue + Implode(glue, pieces[1..])
  }

  /** The string form of each primary-key value, in order. */
  function Strings(values: seq<Scalar>): seq<string>
  {
    seq(|values|, k requires 0 <= k < |values| => ToPhpString(values[k]))
  }

  /** `getSerial`: the values, converted to strings, joined by `Sep` and bracketed by it. */
  function GetSerial(primary: seq<Scalar>): (serial: string)
    ensures |serial| >= 2 * |Sep|
    ensures serial[..|Sep|] == Sep && serial[|serial| - |Sep|..] == Sep
  {
    Sep + Implode(Sep, Strings(primary)) + Sep
  }

  predicate NoUnitSeparator(s: string) {
    UnitSeparator !in s
  }

  /** The caller's obligation for unambiguous lookups: no value contains ASCII 31. */
  predicate SafeValues(values: seq<Scalar>) {
    forall k :: 0 <= k < |values| ==> NoUnitSeparator(ToPhpString(values[k]))
  }

  /** Values with the same string forms, position by position. */
  predicate SameStrings(a: seq<Scalar>, b: seq<Scalar>) {
    |a| == |b| && forall k :: 0 <= k < |a| ==> ToPhpString(a[k]) == ToPhpString(b[k])
  }

  /** Every piece followed by the separator; a serial is `Sep` followed by this. */
  function Terminated(pieces: seq<string>): string
  {
    if |pieces| == 0 then "" else pieces[0] + Sep + Terminated(pieces[1..])
  }

  lemma {:induction false} ImplodeThenSep(pieces: seq<string>)
    requires |pieces| > 0
    ensures Implode(Sep, pieces) + Sep == Terminated(pieces)
  {
    if |pieces| > 1 {
      ImplodeThenSep(pieces[1..]);
      calc {
        Implode(Sep, pieces) + Sep;
        (pieces[0] + Sep + Implode(Sep, pieces[1..])) + Sep;
        pieces[0] + Sep + (Implode(Sep, pieces[1..]) + Sep);
        pieces[0] + Sep + Terminated(pieces[1..]);
      }
    } else {
      assert pieces[1..] == [];
    }
  }

  /** For a non-empty key, the serial is `Sep` followed by each value and a separator. */
  lemma SerialShape(primary: seq<Scalar>)
    requires |primary| > 0
    ensures GetSerial(primary) == Sep + Terminated(Strings(primary))
  {
    ImplodeThenSep(Strings(primary));
    assert GetSerial(primary) == Sep + (Implode(Sep, Strings(primary)) + Sep);
  }

  /** In a separator-free piece followed by `Sep`, the first unit separator is `Sep`'s. */
  lemma FirstUnitSeparator(x: string, s: string)
    requires NoUnitSeparator(x)
    ensures (x + Sep + s)[|x| + 1] == UnitSeparator
    ensures forall k :: 0 <= k <= |x| ==> (x + Sep + s)[k] != UnitSeparator
  {
  }

  /** A serial can be cut at its first unit separator: the piece before it is determined. */
  lemma PeelPiece(x: string, s: string, y: string, t: string)
    requires NoUnitSeparator(x) && NoUnitSeparator(y)
    requires x + Sep + s == y + Sep + t
    ensures x == y && s == t
  {
    var u := x + Sep + s;
    FirstUnitSeparator(x, s);
    FirstUnitSeparator(y, t);
    assert |x| == |y|;
    assert x == u[..|x|] == y;
    assert s == u[|x| + 2..] == t;
  }

  lemma {:induction false} TerminatedInjective(a: seq<string>, b: seq<string>)
    requires forall k :: 0 <= k < |a| ==> NoUnitSeparator(a[k])
    requires forall k :: 0 <= k < |b| ==> NoUnitSeparator(b[k])
    requires Terminated(a) == Terminated(b)
    ensures a == b
  {
    if |a| == 0 || |b| == 0 {
      assert |a| == 0 && |b| == 0;
    } else {
      PeelPiece(a[0], Terminated(a[1..]), b[0], Terminated(b[1..]));
      TerminatedInjective(a[1..], b[1..]);
      assert a == [a[0]] + a[1..];
      assert b == [b[0]] + b[1..];
    }
  }

  /**
   * Serials are determined by the string forms of the values, in order: this is
   * both determinism and the reason null, false and "" are not told apart.
   */
  lemma SerialDeterminedByStrings(a: seq<Scalar>, b: seq<Scalar>)
    requires SameStrings(a, b)
    ensures GetSerial(a) == GetSerial(b)
  {
    assert Strings(a) == Strings(b);
  }

  /**
   * For non-empty keys whose values contain no unit separator, equal serials mean
   * equal string forms position by position, and conversely.
   */
  lemma SerialInjective(a: seq<Scalar>, b: seq<Scalar>)
    requires |a| > 0 && |b| > 0
    requires SafeValues(a) && SafeValues(b)
    ensures GetSerial(a) == GetSerial(b) <==> SameStrings(a, b)
  {
    if GetSerial(a) == GetSerial(b) {
      SerialShape(a);
      SerialShape(b);
      assert Terminated(Strings(a)) == GetSerial(a)[|Sep|..] == Terminated(Strings(b));
      TerminatedInjective(Strings(a), Strings(b));
      assert |a| == |Strings(a)| == |Strings(b)| == |b|;
      forall k | 0 <= k < |a|
        ensures ToPhpString(a[k]) == ToPhpString(b[k])
      {
        assert Strings(a)[k] == Strings(b)[k];
      }
    } else if SameStrings(a, b) {
      SerialDeterminedByStrings(a, b);
    }
  }

  /** A null, false or empty-string component yields one and the same serial. */
  lemma SerialConflatesEmptyValues(primary: seq<Scalar>, k: nat)
    requires k < |primary|
    ensures GetSerial(primary[k := Null]) == GetSerial(primary[k := Bool(false)])
    ensures GetSerial(primary[k := Null]) == GetSerial(primary[k := Str("")])
  {
    SerialDeterminedByStrings(primary[k := Null], primary[k := Bool(false)]);
    SerialDeterminedByStrings(primary[k := Null], primary[k := Str("")]);
  }

  /** Swapping two values with different string forms changes the serial. */
  lemma SerialOrderSensitive(primary: seq<Scalar>, i: nat, j: nat)
    requires i < j < |primary|
    requires SafeValues(primary)
    requires ToPhpString(primary[i]) != ToPhpString(primary[j])
    ensures GetSerial(primary) != GetSerial(primary[i := primary[j]][j := primary[i]])
  {
    var swapped := primary[i := primary[j]][j := primary[i]];
    assert SafeValues(swapped) by {
      forall k | 0 <= k < |swapped|
        ensures NoUnitSeparator(ToPhpString(swapped[k]))
      {
        if k != i && k != j {
          assert swapped[k] == primary[k];
        }
      }
    }
    SerialInjective(primary, swapped);
    assert ToPhpString(primary[i]) != ToPhpString(swapped[i]);
  }

  /** An integer key as key values. */
  function Ints(values: seq<int>): seq<Scalar>
  {
    seq(|values|, k requires 0 <= k < |values| => Int(values[k]))
  }

  lemma DecimalIsSafe(i: int)
    ensures NoUnitSeparator(IntToDecimal(i))
  {
  }

  /** For integer keys, of any length, the serial is injective. */
  lemma SerialInjectiveOnIntegers(a: seq<int>, b: seq<int>)
    ensures GetSerial(Ints(a)) == GetSerial(Ints(b)) <==> a == b
  {
    if GetSerial(Ints(a)) == GetSerial(Ints(b)) {
      if |a| == 0 || |b| == 0 {
        LengthOfIntegerSerial(a);
        LengthOfIntegerSerial(b);
        assert |a| == 0 && |b| == 0;
      } else {
        forall k | 0 <= k < |a|
          ensures NoUnitSeparator(ToPhpString(Ints(a)[k]))
        {
          DecimalIsSafe(a[k]);
        }
        forall k | 0 <= k < |b|
          ensures NoUnitSeparator(ToPhpString(Ints(b)[k]))
        {
          DecimalIsSafe(b[k]);
        }
        SerialInjective(Ints(a), Ints(b));
        forall k | 0 <= k < |a|
          ensures a[k] == b[k]
        {
          assert ToPhpString(Ints(a)[k]) == ToPhpString(Ints(b)[k]);
          IntToDecimalInjective(a[k], b[k]);
        }
      }
    }
  }

  /** Only the empty integer key has a serial as short as two separators. */
  lemma LengthOfIntegerSerial(a: seq<int>)
    ensures |GetSerial(Ints(a))| == 2 * |Sep| <==> |a| == 0
  {
  }

  /** The serial of the single key value 7. */
  lemma SerialOfSeven()
    ensures GetSerial([Int(7)]) == "|\U{1F}7|\U{1F}"
  {
  }

  /** Keys `[1, 2]` and `[2, 1]` hold the same values but have different serials. */
  lemma SerialOfPermutedPair()
    ensures GetSerial([Int(1), Int(2)]) != GetSerial([Int(2), Int(1)])
  {
    SerialInjectiveOnIntegers([1, 2], [2, 1]);
    assert Ints([1, 2]) == [Int(1), Int(2)];
    assert Ints([2, 1]) == [Int(2), Int(1)];
  }

  /** An integer and a string with the same digits are interchangeable, so swapping them keeps the serial. */
  lemma SerialOfMixedPair()
    ensures GetSerial([Int(1), Str("1")]) == GetSerial([Str("1"), Int(1)])
  {
    assert ToPhpString(Int(1)) == "1";
    assert Strings([Int(1), Str("1")]) == Strings([Str("1"), Int(1)]);
  }

  /** A value containing the separator makes a one-column key look like a two-column one. */
  lemma UnitSeparatorInValueCollides()
    ensures GetSerial([Str("a" + Sep + "b")]) == GetSerial([Str("a"), Str("b")])
  {
    assert Strings([Str("a"), Str("b")]) == ["a", "b"];
    assert Strings([Str("a" + Sep + "b")]) == ["a" + Sep + "b"];
    assert Implode(Sep, ["a", "b"]) == "a" + Sep + Implode(Sep, ["b"]) == "a" + Sep + "b";
  }

  /** An empty key and a key holding "" share a serial: both implode to "". */
  lemma EmptyKeyMatchesEmptyString()
    ensures GetSerial([]) == GetSerial([Str("")])
  {
  }

  // ---------------------------------------------------------------------------
  // The identity map
  // ---------------------------------------------------------------------------

  /** The identity of a row instance. */
  type RowId = nat

  /** A row's column values, as `getArrayCopy` returns them. */
  type Columns = map<string, Scalar>

  /** A row instance: its identity and its current column values. */
  datatype Row = Row(id: RowId, columns: Columns)

  datatype IdentityMap = IdentityMap(
    serialToRow: map<string, RowId>,
    rowToSerial: map<RowId, string>,
    initial: map<RowId, Columns>)

  /** Row `id` is registered, under `serial`. */
  predicate RegisteredUnder(m: IdentityMap, id: RowId, serial: string) {
    id in m.rowToSerial && m.rowToSerial[id] == serial
  }

  /**
   * The invariant the three stores keep: exactly the registered rows have a
   * snapshot, each serial points at a row registered under it, and every
   * registered row's serial is present in the lookup table.
   */
  ghost predicate Valid(m: IdentityMap) {
    && m.initial.Keys == m.rowToSerial.Keys
    && (forall serial :: serial in m.serialToRow ==> RegisteredUnder(m, m.serialToRow[serial], serial))
    && (forall id :: id in m.rowToSerial ==> m.rowToSerial[id] in m.serialToRow)
  }

  /** The constructor: no rows registered. */
  function Empty(): (m: IdentityMap)
    ensures Valid(m)
    ensures forall row :: !HasRow(m, row)
    ensures forall primary :: GetRow(m, primary) == None
  {
    IdentityMap(map[], map[], map[])
  }

  /** `hasRow`: membership by instance identity, whatever the row's current values. */
  function HasRow(m: IdentityMap, row: Row): (r: bool)
    ensures r <==> exists serial :: RegisteredUnder(m, row.id, serial)
    ensures Valid(m) ==> (r <==> row.id in m.initial)
    ensures Valid(m) && r ==> m.rowToSerial[row.id] in m.serialToRow
  {
    assert row.id in m.rowToSerial ==> RegisteredUnder(m, row.id, m.rowToSerial[row.id]);
    row.id in m.rowToSerial
  }

  /** `getRow`: the row registered under the serial of `primary`, or `None` (PHP `false`). */
  function GetRow(m: IdentityMap, primary: seq<Scalar>): (r: Option<RowId>)
    ensures Valid(m) && r.Some? ==> RegisteredUnder(m, r.value, GetSerial(primary))
    ensures Valid(m) ==> (r.None? <==> forall id :: !RegisteredUnder(m, id, GetSerial(primary)))
  {
    var serial := GetSerial(primary);
    if serial !in m.serialToRow then None else Some(m.serialToRow[serial])
  }

  /** The row has every column the primary key names. */
  predicate HasColumns(row: Row, primaryKey: seq<string>) {
    forall col :: col in primaryKey ==> col in row.columns
  }

  /** The position where `name` first appears in `names`, or `|names|` when it is absent. */
  function FirstIndex(names: seq<string>, name: string): (i: nat)
    ensures i <= |names|
    ensures i < |names| ==> names[i] == name
    ensures forall k :: 0 <= k < i ==> names[k] != name
  {
    if |names| == 0 then 0
    else if names[0] == name then 0
    else 1 + FirstIndex(names[1..], name)
  }

  /** Dropping the last name does not move the first appearance of an earlier name. */
  lemma FirstIndexOfPrefix(names: seq<string>, name: string)
    requires |names| > 0 && name in names[..|names| - 1]
    ensures FirstIndex(names, name) == FirstIndex(names[..|names| - 1], name)
  {
    var i := FirstIndex(names[..|names| - 1], name);
    assert names[i] == name;
  }

  /** The names of `r`, all drawn from `names`, are listed in order of first appearance there. */
  predicate InFirstOrder(names: seq<string>, r: seq<string>) {
    forall i, j :: 0 <= i < j < |r| ==> FirstIndex(names, r[i]) < FirstIndex(names, r[j])
  }

  /** Ordering by first appearance in all but the last name survives adding that name. */
  lemma InFirstOrderExtend(names: seq<string>, prefix: seq<string>)
    requires |names| > 0
    requires forall k :: 0 <= k < |prefix| ==> prefix[k] in names[..|names| - 1]
    requires InFirstOrder(names[..|names| - 1], prefix)
    ensures InFirstOrder(names, prefix)
    ensures names[|names| - 1] !in names[..|names| - 1] ==>
      InFirstOrder(names, prefix + [names[|names| - 1]])
  {
    var init := names[..|names| - 1];
    var last := names[|names| - 1];
    assert names == init + [last];
    forall k | 0 <= k < |prefix|
      ensures FirstIndex(names, prefix[k]) == FirstIndex(init, prefix[k]) < |init|
    {
      FirstIndexOfPrefix(names, prefix[k]);
    }
    if last !in init {
      var r := prefix + [last];
      assert FirstIndex(names, last) == |init|;
      forall i, j | 0 <= i < j < |r|
        ensures FirstIndex(names, r[i]) < FirstIndex(names, r[j])
      {
        assert r[i] == prefix[i];
        if j < |prefix| {
          assert r[j] == prefix[j];
        }
      }
    }
  }

  /**
   * Column names in order of first appearance: assigning into a PHP array under a
   * key it already has keeps that key's original position.
   */
  function FirstOccurrences(names: seq<string>): (r: seq<string>)
    ensures forall k :: 0 <= k < |r| ==> r[k] in names
    ensures forall k :: 0 <= k < |names| ==> names[k] in r
    ensures forall i, j :: 0 <= i < j < |r| ==> r[i] != r[j]
    ensures (forall i, j :: 0 <= i < j < |names| ==> names[i] != names[j]) ==> r == names
  {
    if |names| == 0 then []
    else
      var init := names[..|names| - 1];
      var prefix := FirstOccurrences(init);
      var last := names[|names| - 1];
      assert names == init + [last];
      if last in prefix then prefix else prefix + [last]
  }

  /** The kept columns appear in the order of their first appearance in the key. */
  lemma {:induction false} FirstOccurrencesInFirstOrder(names: seq<string>)
    ensures InFirstOrder(names, FirstOccurrences(names))
  {
    if |names| > 0 {
      var init := names[..|names| - 1];
      var last := names[|names| - 1];
      var prefix := FirstOccurrences(init);
      FirstOccurrencesInFirstOrder(init);
      assert last !in prefix ==> last !in init;
      InFirstOrderExtend(names, prefix);
    }
  }

  /** A repeated key column is kept once, at its first position. */
  lemma FirstOccurrencesExample()
    ensures FirstOccurrences(["a", "b", "a"]) == ["a", "b"]
  {
    assert ["a", "b", "a"][..2] == ["a", "b"];
    assert ["a", "b"][..1] == ["a"];
    assert ["a"][..0] == [];
  }

  /** The row's primary-key values, in primary-key column order. */
  function PrimaryValues(row: Row, primaryKey: seq<string>): (values: seq<Scalar>)
    requires HasColumns(row, primaryKey)
    ensures (forall i, j :: 0 <= i < j < |primaryKey| ==> primaryKey[i] != primaryKey[j]) ==>
      |values| == |primaryKey| &&
      forall k :: 0 <= k < |primaryKey| ==> values[k] == row.columns[primaryKey[k]]
    ensures var cols := FirstOccurrences(primaryKey);
      |values| == |cols| && forall k :: 0 <= k < |cols| ==> values[k] == row.columns[cols[k]]
  {
    var cols := FirstOccurrences(primaryKey);
    seq(|cols|, k requires 0 <= k < |cols| => row.columns[cols[k]])
  }

  /**
   * `setRow`: registers a row under the serial of its primary-key values, with the
   * given snapshot. A row instance that is already registered is refused and the
   * map is left as it was; a different row already holding the same serial loses
   * its place in the serial lookup to the new one.
   */
  function SetRow(m: IdentityMap, row: Row, initial: Columns, primaryKey: seq<string>)
    : (r: Result<IdentityMap, Exception>)
    requires Valid(m)
    requires HasRow(m, row) || HasColumns(row, primaryKey)
    ensures HasRow(m, row) <==> r == Failure(RowAlreadyMapped)
    ensures !HasRow(m, row) ==> r.Success?
    ensures r.Success? ==> Valid(r.value)
    ensures r.Success? ==> HasRow(r.value, row) && GetInitial(r.value, row) == Success(initial)
    ensures r.Success? ==> GetRow(r.value, PrimaryValues(row, primaryKey)) == Some(row.id)
    ensures r.Success? ==> forall other: Row :: other.id != row.id ==>
      HasRow(r.value, other) == HasRow(m, other) && GetInitial(r.value, other) == GetInitial(m, other)
    ensures r.Success? ==> forall primary ::
      GetSerial(primary) != GetSerial(PrimaryValues(row, primaryKey)) ==>
      GetRow(r.value, primary) == GetRow(m, primary)
  {
    if HasRow(m, row) then
      Failure(RowAlreadyMapped)
    else
      var serial := GetSerial(PrimaryValues(row, primaryKey));
      Success(IdentityMap(
        m.serialToRow[serial := row.id],
        m.rowToSerial[row.id := serial],
        m.initial[row.id := initial]))
  }

  /**
   * `getInitial`: the snapshot of a registered row. It depends on the row's
   * identity only, never on its current column values.
   */
  function GetInitial(m: IdentityMap, row: Row): (r: Result<Columns, Exception>)
    requires Valid(m)
    ensures r.Failure? <==> !HasRow(m, row)
    ensures r.Failure? ==> r.error == RowNotMapped
  {
    if !HasRow(m, row) then Failure(RowNotMapped) else Success(m.initial[row.id])
  }

  /**
   * `setInitial`: makes the row's current column values its new snapshot. Both
   * serial stores and every other row's snapshot are left as they were.
   */
  function SetInitial(m: IdentityMap, row: Row): (r: Result<IdentityMap, Exception>)
    requires Valid(m)
    ensures !HasRow(m, row) <==> r == Failure(RowNotMapped)
    ensures HasRow(m, row) ==> r.Success?
    ensures r.Success? ==> Valid(r.value) && GetInitial(r.value, row) == Success(row.columns)
    ensures r.Success? ==> r.value.serialToRow == m.serialToRow && r.value.rowToSerial == m.rowToSerial
    ensures r.Success? ==> forall other: Row :: other.id != row.id ==>
      GetInitial(r.value, other) == GetInitial(m, other)
  {
    if !HasRow(m, row) then
      Failure(RowNotMapped)
    else
      Success(m.(initial := m.initial[row.id := row.columns]))
  }

  // ---------------------------------------------------------------------------
  // Properties relating several calls
  // ---------------------------------------------------------------------------

  /** A second registration of the same instance fails, even after its values changed. */
  lemma RegisterTwiceFails(m: IdentityMap, row: Row, later: Row, initial: Columns, initial': Columns,
                           primaryKey: seq<string>, primaryKey': seq<string>)
    requires Valid(m) && HasColumns(row, primaryKey)
    requires SetRow(m, row, initial, primaryKey).Success?
    requires later.id == row.id
    ensures SetRow(SetRow(m, row, initial, primaryKey).value, later, initial', primaryKey')
      == Failure(RowAlreadyMapped)
  {
  }

  /**
   * Registering a different row under an already-used serial replaces it in the
   * lookup, while the earlier row stays registered with its own snapshot.
   */
  lemma LaterRowWinsSerial(m: IdentityMap, a: Row, b: Row, initA: Columns, initB: Columns,
                           primaryKey: seq<string>)
    requires Valid(m) && !HasRow(m, a) && !HasRow(m, b) && a.id != b.id
    requires HasColumns(a, primaryKey) && HasColumns(b, primaryKey)
    requires PrimaryValues(a, primaryKey) == PrimaryValues(b, primaryKey)
    ensures var m1 := SetRow(m, a, initA, primaryKey).value;
      var m2 := SetRow(m1, b, initB, primaryKey).value;
      GetRow(m2, PrimaryValues(a, primaryKey)) == Some(b.id) &&
      HasRow(m2, a) && GetInitial(m2, a) == Success(initA)
  {
  }

  /**
   * The snapshot is a copy: after the row's columns change, the snapshot keeps the
   * registered values until `setInitial` is called with the changed row.
   */
  lemma SnapshotTracksOnlySetInitial(m: IdentityMap, row: Row, changed: Row, initial: Columns,
                                     primaryKey: seq<string>)
    requires Valid(m) && !HasRow(m, row) && HasColumns(row, primaryKey)
    requires changed.id == row.id
    ensures var m1 := SetRow(m, row, initial, primaryKey).value;
      GetInitial(m1, changed) == Success(initial) &&
      GetInitial(SetInitial(m1, changed).value, changed) == Success(changed.columns)
  {
  }

  /** Register `{id: 1, name: "x"}` under `["id"]`, change `name` to "y", refresh. */
  lemma RefreshScenario()
    ensures
      var row := Row(1, map["id" := Int(1), "name" := Str("x")]);
      var changed := Row(1, map["id" := Int(1), "name" := Str("y")]);
      var m1 := SetRow(Empty(), row, row.columns, ["id"]);
      m1.Success? &&
      GetRow(m1.value, [Int(1)]) == Some(1) &&
      var m2 := SetInitial(m1.value, changed);
      m2.Success? && GetInitial(m2.value, row) == Success(map["id" := Int(1), "name" := Str("y")])
  {
  }
}

=== FILE: record_set.dfy ===
/**
 * The record set of the mapper (`Atlas\Orm\Mapper\RecordSet`): an ordered, keyed
 * collection that admits only `Record` objects and otherwise behaves like a PHP
 * array. Entries keep insertion order; assigning to an existing key overwrites in
 * place; appending uses the array's next free integer index.
 */
module Mapper {
  import opened Wrappers
  import opened Exceptions

  /** The class every element must be an instance of. */
  const RecordClass: string := "Atlas\\Orm\\Mapper\\Record"

  /** A `Record` instance, by identity. Its contents lie outside this model. */
  datatype Record = Record(handle: nat)

  /** A PHP array key, already normalised to an integer or a string. */
  datatype Key = IntKey(i: int) | StrKey(s: string)

  /** A value offered to the set: a record, a non-object, or an object of another class. */
  datatype Value =
    | Rec(record: Record)
    | NonObject(typeName: string)
    | OtherObject(className: string)

  /**
   * The records in iteration order, and the index a `[]` assignment uses next. Like
   * a PHP array, `nextIndex` starts at 0, only ever grows, and moves past every
   * integer key assigned.
   */
  datatype RecordSet = RecordSet(entries: seq<(Key, Record)>, nextIndex: int)

  predicate DistinctKeys(entries: seq<(Key, Record)>) {
    forall i, j :: 0 <= i < j < |entries| ==> entries[i].0 != entries[j].0
  }

  /** Keys are unique and the next free index lies beyond every integer key. */
  ghost predicate Valid(s: RecordSet) {
    && DistinctKeys(s.entries)
    && s.nextIndex >= 0
    && forall k :: 0 <= k < |s.entries| && s.entries[k].0.IntKey? ==> s.entries[k].0.i < s.nextIndex
  }

  /** The position of `key` in `entries`, if it is there. */
  function KeyIndex(entries: seq<(Key, Record)>, key: Key): (r: Option<nat>)
    ensures r.Some? ==> r.value < |entries| && entries[r.value].0 == key
    ensures r.None? <==> forall k :: 0 <= k < |entries| ==> entries[k].0 != key
  {
    if |entries| == 0 then None
    else if entries[0].0 == key then Some(0)
    else match KeyIndex(entries[1..], key)
      case None => None
      case Some(k) => Some(k + 1)
  }

  /** With unique keys, a key is found exactly where it is. */
  lemma KeyIndexOfDistinct(entries: seq<(Key, Record)>, k: nat)
    requires DistinctKeys(entries) && k < |entries|
    ensures KeyIndex(entries, entries[k].0) == Some(k)
  {
  }

  /** The constructor with no argument: an empty set. */
  function Empty(): (s: RecordSet)
    ensures Valid(s) && Count(s) == 0 && IsEmpty(s)
    ensures forall key :: !OffsetExists(s, key)
  {
    RecordSet([], 0)
  }

  /** `offsetExists`: `isset` is true exactly for the keys present, as no element is null. */
  function OffsetExists(s: RecordSet, key: Key): (r: bool)
    ensures r <==> exists k :: 0 <= k < |s.entries| && s.entries[k].0 == key
  {
    KeyIndex(s.entries, key).Some?
  }

  /** `offsetGet`: the record under `key`, or `None` (PHP yields null) when it is missing. */
  function OffsetGet(s: RecordSet, key: Key): (r: Option<Record>)
    ensures r.Some? <==> OffsetExists(s, key)
    ensures Valid(s) ==> forall k :: 0 <= k < |s.entries| && s.entries[k].0 == key ==>
      r == Some(s.entries[k].1)
  {
    match KeyIndex(s.entries, key)
    case None => None
    case Some(k) => Some(s.entries[k].1)
  }

  /** The name `invalidType` reports: `gettype` of a non-object, else the object's class. */
  function TypeName(v: Value): (name: string)
    requires !v.Rec?
    ensures v.NonObject? ==> name == v.typeName
    ensures v.OtherObject? ==> name == v.className
  {
    match v
    case NonObject(t) => t
    case OtherObject(c) => c
  }

  /** Array assignment `$records[$key] = $record`: overwrite in place, or append the new key. */
  function Store(s: RecordSet, key: Key, record: Record): (r: RecordSet)
    ensures Valid(s) && OffsetExists(s, key) ==>
      |r.entries| == |s.entries| &&
      forall k :: 0 <= k < |s.entries| ==>
        r.entries[k] == if s.entries[k].0 == key then (key, record) else s.entries[k]
    ensures !OffsetExists(s, key) ==> r.entries == s.entries + [(key, record)]
    ensures r.nextIndex >= s.nextIndex
    ensures key.IntKey? ==> r.nextIndex > key.i && (r.nextIndex == s.nextIndex || r.nextIndex == key.i + 1)
    ensures key.StrKey? ==> r.nextIndex == s.nextIndex
    ensures Valid(s) ==> Valid(r) && OffsetGet(r, key) == Some(record)
  {
    var next := if key.IntKey? && key.i >= s.nextIndex then key.i + 1 else s.nextIndex;
    match KeyIndex(s.entries, key)
    case Some(k) =>
      var r := RecordSet(s.entries[k := (key, record)], next);
      assert Valid(s) ==> next == s.nextIndex;
      assert Valid(s) ==> Valid(r);
      assert Valid(s) ==> KeyIndex(r.entries, key) == Some(k) by {
        if Valid(s) {
          KeyIndexOfDistinct(r.entries, k);
        }
      }
      r
    case None =>
      var r := RecordSet(s.entries + [(key, record)], next);
      assert Valid(s) ==> Valid(r);
      assert Valid(s) ==> KeyIndex(r.entries, key) == Some(|s.entries|) by {
        if Valid(s) {
          KeyIndexOfDistinct(r.entries, |s.entries|);
        }
      }
      r
  }

  /**
   * `offsetSet`: refuses anything that is not a `Record`, leaving the set as it was;
   * a null offset appends at the next free index; any other offset is assigned.
   */
  function OffsetSet(s: RecordSet, offset: Option<Key>, value: Value): (r: Result<RecordSet, Exception>)
    ensures !value.Rec? ==> r == Failure(InvalidType(RecordClass, TypeName(value)))
    ensures value.Rec? ==> r.Success?
    ensures value.Rec? && offset.None? && Valid(s) ==>
      r.value.entries == s.entries + [(IntKey(s.nextIndex), value.record)] &&
      r.value.nextIndex == s.nextIndex + 1
    ensures value.Rec? && offset.Some? && Valid(s) && OffsetExists(s, offset.value) ==>
      |r.value.entries| == |s.entries| &&
      forall k :: 0 <= k < |s.entries| ==>
        r.value.entries[k] == if s.entries[k].0 == offset.value then (offset.value, value.record) else s.entries[k]
    ensures value.Rec? && offset.Some? && !OffsetExists(s, offset.value) ==>
      r.value.entries == s.entries + [(offset.value, value.record)]
    ensures value.Rec? && offset.Some? && Valid(s) ==> OffsetGet(r.value, offset.value) == Some(value.record)
    ensures value.Rec? && offset.Some? ==> r.value.nextIndex >= s.nextIndex
    ensures value.Rec? && offset.Some? && offset.value.IntKey? ==>
      r.value.nextIndex > offset.value.i &&
      (r.value.nextIndex == s.nextIndex || r.value.nextIndex == offset.value.i + 1)
    ensures value.Rec? && offset.Some? && offset.value.StrKey? ==> r.value.nextIndex == s.nextIndex
    ensures Valid(s) && r.Success? ==> Valid(r.value)
  {
    if !value.Rec? then
      Failure(InvalidType(RecordClass, TypeName(value)))
    else if offset.None? then
      Success(Store(s, IntKey(s.nextIndex), value.record))
    else
      Success(Store(s, offset.value, value.record))
  }

  /** `offsetUnset`: removes the entry under `key`, keeping the others in order. */
  function OffsetUnset(s: RecordSet, key: Key): (r: RecordSet)
    ensures !OffsetExists(s, key) ==> r == s
    ensures OffsetExists(s, key) ==> |r.entries| == |s.entries| - 1
    ensures Valid(s) ==> forall k :: 0 <= k < |s.entries| && s.entries[k].0 == key ==>
      r.entries == s.entries[..k] + s.entries[k + 1..]
    ensures r.nextIndex == s.nextIndex
    ensures Valid(s) ==> Valid(r) && !OffsetExists(r, key)
  {
    match KeyIndex(s.entries, key)
    case None => s
    case Some(k) =>
      assert Valid(s) ==> forall j :: 0 <= j < |s.entries| && s.entries[j].0 == key ==> j == k;
      RecordSet(s.entries[..k] + s.entries[k + 1..], s.nextIndex)
  }

  /** `count`: the number of entries iteration visits. */
  function Count(s: RecordSet): (n: nat)
    ensures n == |GetIterator(s)|
  {
    |s.entries|
  }

  /** `isEmpty`: an empty PHP array is falsy. */
  function IsEmpty(s: RecordSet): (r: bool)
    ensures r <==> Count(s) == 0
  {
    s.entries == []
  }

  /**
   * `getIterator`: the (key, record) pairs in insertion order. In a valid set it
   * visits each key once, with the record `offsetGet` returns for it.
   */
  function GetIterator(s: RecordSet): (pairs: seq<(Key, Record)>)
    ensures Valid(s) ==> DistinctKeys(pairs)
    ensures Valid(s) ==> forall k :: 0 <= k < |pairs| ==> OffsetGet(s, pairs[k].0) == Some(pairs[k].1)
    ensures forall key :: OffsetExists(s, key) ==> exists k :: 0 <= k < |pairs| && pairs[k].0 == key
  {
    s.entries
  }

  /** The plain copy of each entry, in order; `copy` is `Record::getArrayCopy`. */
  function CopyEntries<V>(entries: seq<(Key, Record)>, copy: Record -> V): (a: seq<(Key, V)>)
    ensures |a| == |entries|
    ensures forall k :: 0 <= k < |a| ==> a[k].0 == entries[k].0 && a[k].1 == copy(entries[k].1)
  {
    if |entries| == 0 then []
    else [(entries[0].0, copy(entries[0].1))] + CopyEntries(entries[1..], copy)
  }

  /**
   * `getArrayCopy`: every record replaced by its own array copy, under the same
   * keys and in iteration order.
   */
  function GetArrayCopy<V>(s: RecordSet, copy: Record -> V): (a: seq<(Key, V)>)
    ensures |a| == Count(s)
    ensures forall k :: 0 <= k < |a| ==>
      a[k].0 == GetIterator(s)[k].0 && a[k].1 == copy(GetIterator(s)[k].1)
  {
    CopyEntries(GetIterator(s), copy)
  }

  /** The array a record set is constructed from has unique keys. */
  predicate DistinctPairKeys(pairs: seq<(Key, Value)>) {
    forall i, j :: 0 <= i < j < |pairs| ==> pairs[i].0 != pairs[j].0
  }

  /** Every offered value is a record. */
  predicate AllRecords(pairs: seq<(Key, Value)>) {
    forall k :: 0 <= k < |pairs| ==> pairs[k].1.Rec?
  }

  /** None of the keys of `pairs` is already in `s`. */
  predicate NoneStored(s: RecordSet, pairs: seq<(Key, Value)>) {
    forall k :: 0 <= k < |pairs| ==> !OffsetExists(s, pairs[k].0)
  }

  /** The first offered value that is not a record is at position `k`. */
  predicate FirstInvalidAt(pairs: seq<(Key, Value)>, k: int) {
    0 <= k < |pairs| && !pairs[k].1.Rec? && forall j :: 0 <= j < k ==> pairs[j].1.Rec?
  }

  /**
   * `offsetSet` applied to each pair in order, starting from `s`; stops at the
   * first value that is not a record. Keys new to `s` and to one another are
   * appended in order.
   */
  function SetAll(s: RecordSet, pairs: seq<(Key, Value)>): (r: Result<RecordSet, Exception>)
    ensures r.Success? <==> AllRecords(pairs)
    ensures r.Failure? ==>
      exists k :: FirstInvalidAt(pairs, k) && r.error == InvalidType(RecordClass, TypeName(pairs[k].1))
    ensures Valid(s) && r.Success? ==> Valid(r.value)
    ensures r.Success? && DistinctPairKeys(pairs) && NoneStored(s, pairs) ==>
      |r.value.entries| == |s.entries| + |pairs| &&
      r.value.entries[..|s.entries|] == s.entries &&
      forall k :: 0 <= k < |pairs| ==>
        r.value.entries[|s.entries| + k] == (pairs[k].0, pairs[k].1.record)
    decreases |pairs|
  {
    if |pairs| == 0 then
      Success(s)
    else
      match OffsetSet(s, Some(pairs[0].0), pairs[0].1)
      case Failure(e) =>
        assert FirstInvalidAt(pairs, 0);
        Failure(e)
      case Success(s') =>
        var rest := SetAll(s', pairs[1..]);
        assert rest.Failure? ==>
          exists k :: FirstInvalidAt(pairs, k) && rest.error == InvalidType(RecordClass, TypeName(pairs[k].1)) by {
          if rest.Failure? {
            var k :| FirstInvalidAt(pairs[1..], k) &&
              rest.error == InvalidType(RecordClass, TypeName(pairs[1..][k].1));
            assert FirstInvalidAt(pairs, k + 1);
          }
        }
        rest
  }

  /**
   * The next index after storing `pairs` is the larger of the starting one and one
   * past the largest integer key stored.
   */
  lemma {:induction false} SetAllNextIndex(s: RecordSet, pairs: seq<(Key, Value)>)
    ensures var r := SetAll(s, pairs);
      r.Success? ==>
        r.value.nextIndex >= s.nextIndex &&
        (forall k :: 0 <= k < |pairs| && pairs[k].0.IntKey? ==> r.value.nextIndex > pairs[k].0.i) &&
        (r.value.nextIndex == s.nextIndex || exists k :: 0 <= k < |pairs| && pairs[k].0 == IntKey(r.value.nextIndex - 1))
    decreases |pairs|
  {
    var r := SetAll(s, pairs);
    if |pairs| > 0 && r.Success? {
      var s' := OffsetSet(s, Some(pairs[0].0), pairs[0].1).value;
      assert r == SetAll(s', pairs[1..]);
      SetAllNextIndex(s', pairs[1..]);
      forall k | 0 <= k < |pairs| && pairs[k].0.IntKey?
        ensures r.value.nextIndex > pairs[k].0.i
      {
        if k > 0 {
          assert pairs[1..][k - 1] == pairs[k];
        }
      }
      if r.value.nextIndex != s.nextIndex {
        if r.value.nextIndex == s'.nextIndex {
          assert pairs[0].0 == IntKey(r.value.nextIndex - 1);
        } else {
          var k :| 0 <= k < |pairs[1..]| && pairs[1..][k].0 == IntKey(r.value.nextIndex - 1);
          assert pairs[k + 1].0 == IntKey(r.value.nextIndex - 1);
        }
      }
    }
  }

  /** The constructor: each `(key, value)` of the given array stored by `offsetSet`, in order. */
  function FromArray(pairs: seq<(Key, Value)>): (r: Result<RecordSet, Exception>)
    requires DistinctPairKeys(pairs)
    ensures r.Success? <==> AllRecords(pairs)
    ensures r.Failure? ==>
      exists k :: FirstInvalidAt(pairs, k) && r.error == InvalidType(RecordClass, TypeName(pairs[k].1))
    ensures r.Success? ==> Valid(r.value)
    ensures r.Success? ==> |r.value.entries| == |pairs| && forall k :: 0 <= k < |pairs| ==> r.value.entries[k] == (pairs[k].0, pairs[k].1.record)
    ensures r.Success? ==> forall k :: 0 <= k < |pairs| && pairs[k].0.IntKey? ==> r.value.nextIndex > pairs[k].0.i
    ensures r.Success? ==>
      r.value.nextIndex == 0 || exists k :: 0 <= k < |pairs| && pairs[k].0 == IntKey(r.value.nextIndex - 1)
  {
    SetAllNextIndex(Empty(), pairs);
    SetAll(Empty(), pairs)
  }

  // ---------------------------------------------------------------------------
  // Properties relating several calls
  // ---------------------------------------------------------------------------

  /** Assigning under one key leaves what every other key holds as it was. */
  lemma StoreLeavesOtherKeys(s: RecordSet, key: Key, record: Record, other: Key)
    requires Valid(s) && other != key
    ensures OffsetGet(Store(s, key, record), other) == OffsetGet(s, other)
  {
    var r := Store(s, key, record);
    if OffsetExists(s, other) {
      var j :| 0 <= j < |s.entries| && s.entries[j].0 == other;
      assert r.entries[j] == s.entries[j];
    }
  }

  /**
   * Appending with a null offset adds exactly one entry, at the old next index,
   * and leaves every existing key as it was.
   */
  lemma AppendAddsOne(s: RecordSet, record: Record, other: Key)
    requires Valid(s)
    ensures var r := OffsetSet(s, None, Rec(record));
      r.Success? && Count(r.value) == Count(s) + 1 &&
      OffsetGet(r.value, IntKey(s.nextIndex)) == Some(record) &&
      (other != IntKey(s.nextIndex) ==> OffsetGet(r.value, other) == OffsetGet(s, other))
  {
    if other != IntKey(s.nextIndex) {
      StoreLeavesOtherKeys(s, IntKey(s.nextIndex), record, other);
    }
  }

  /**
   * Assigning a record under a key makes it the value of that key; an existing key
   * keeps its place and the count, a new key is added at the end.
   */
  lemma SetThenGet(s: RecordSet, key: Key, record: Record, other: Key)
    requires Valid(s)
    ensures var r := OffsetSet(s, Some(key), Rec(record));
      r.Success? && OffsetGet(r.value, key) == Some(record) &&
      Count(r.value) == (if OffsetExists(s, key) then Count(s) else Count(s) + 1) &&
      (other != key ==> OffsetGet(r.value, other) == OffsetGet(s, other))
  {
    if other != key {
      StoreLeavesOtherKeys(s, key, record, other);
    }
  }

  /** A value that is not a record is refused whatever the offset, and nothing is stored. */
  lemma InvalidValueRefused(s: RecordSet, offset: Option<Key>, value: Value)
    requires !value.Rec?
    ensures OffsetSet(s, offset, value).Failure?
    ensures OffsetSet(s, offset, value).error.InvalidType?
  {
  }

  /** Unsetting a key removes it, and one entry with it; unsetting a missing key changes nothing. */
  lemma UnsetRemovesKey(s: RecordSet, key: Key)
    requires Valid(s)
    ensures var r := OffsetUnset(s, key);
      !OffsetExists(r, key) &&
      Count(r) == (if OffsetExists(s, key) then Count(s) - 1 else Count(s))
  {
  }

  /** Unsetting a key leaves what every other key holds as it was. */
  lemma UnsetLeavesOtherKeys(s: RecordSet, key: Key, other: Key)
    requires Valid(s) && other != key
    ensures OffsetGet(OffsetUnset(s, key), other) == OffsetGet(s, other)
  {
    if OffsetExists(s, key) {
      var i := KeyIndex(s.entries, key).value;
      var r := OffsetUnset(s, key);
      assert r.entries == s.entries[..i] + s.entries[i + 1..];
      RemoveAt(s.entries, i);
      assert Valid(r);
      match KeyIndex(s.entries, other)
      case Some(j) =>
        var j' := if j < i then j else j - 1;
        assert r.entries[j'] == s.entries[j];
        KeyIndexOfDistinct(r.entries, j');
      case None =>
        assert KeyIndex(r.entries, other).None?;
    }
  }

  /** Position by position, what is left after removing the entry at `i`. */
  lemma RemoveAt(entries: seq<(Key, Record)>, i: nat)
    requires i < |entries|
    ensures var rest := entries[..i] + entries[i + 1..];
      |rest| == |entries| - 1 &&
      forall j :: 0 <= j < |rest| ==> rest[j] == if j < i then entries[j] else entries[j + 1]
  {
  }

  /**
   * After assigning under integer key `k`, an append lands at the larger of the old
   * next index and `k + 1`.
   */
  lemma AppendAfterIntKey(s: RecordSet, k: int, x: Record, y: Record)
    requires Valid(s)
    ensures var s1 := OffsetSet(s, Some(IntKey(k)), Rec(x)).value;
      var s2 := OffsetSet(s1, None, Rec(y)).value;
      var n := if k + 1 > s.nextIndex then k + 1 else s.nextIndex;
      s2.entries == s1.entries + [(IntKey(n), y)] && OffsetGet(s2, IntKey(n)) == Some(y)
  {
  }

  /** Built from `[5 => a]`, the set appends its next record under key 6. */
  lemma AppendAfterFive(a: Record, b: Record)
    ensures var built := FromArray([(IntKey(5), Rec(a))]);
      built.Success? &&
      var r := OffsetSet(built.value, None, Rec(b)).value;
      GetIterator(r) == [(IntKey(5), a), (IntKey(6), b)] && OffsetGet(r, IntKey(6)) == Some(b)
  {
    var pairs := [(IntKey(5), Rec(a))];
    var s1 := OffsetSet(Empty(), Some(IntKey(5)), Rec(a)).value;
    assert s1.nextIndex == 6;
    assert pairs[1..] == [];
    assert SetAll(Empty(), pairs) == SetAll(s1, []);
  }

  /**
   * Iteration follows insertion order: a new key or an append is visited last,
   * and an unset drops the entry from its place without moving the others.
   */
  lemma IterationFollowsInsertion(s: RecordSet, key: Key, x: Record)
    requires Valid(s)
    ensures !OffsetExists(s, key) ==> GetIterator(OffsetSet(s, Some(key), Rec(x)).value) == GetIterator(s) + [(key, x)]
    ensures GetIterator(OffsetSet(s, None, Rec(x)).value) == GetIterator(s) + [(IntKey(s.nextIndex), x)]
    ensures forall k :: 0 <= k < |GetIterator(s)| && GetIterator(s)[k].0 == key ==>
      GetIterator(OffsetUnset(s, key)) == GetIterator(s)[..k] + GetIterator(s)[k + 1..]
  {
  }

  /** Built from `[0 => a, 1 => b]`, the set holds both in order and its next index is 2. */
  lemma BuiltFromZeroOne(a: Record, b: Record)
    ensures var built := FromArray([(IntKey(0), Rec(a)), (IntKey(1), Rec(b))]);
      built.Success? && built.value.entries == [(IntKey(0), a), (IntKey(1), b)] && built.value.nextIndex == 2
  {
    var pairs := [(IntKey(0), Rec(a)), (IntKey(1), Rec(b))];
    assert AllRecords(pairs);
    var n := FromArray(pairs).value.nextIndex;
    assert pairs[1].0 == IntKey(1);
    assert n == 2 by {
      if n != 0 {
        var k :| 0 <= k < |pairs| && pairs[k].0 == IntKey(n - 1);
        assert k == 0 || k == 1;
      }
    }
  }

  /** Built from `[0 => a, 1 => b]`, the set appends its next record under key 2. */
  lemma AppendAfterConstruction(a: Record, b: Record, c: Record)
    ensures var built := FromArray([(IntKey(0), Rec(a)), (IntKey(1), Rec(b))]);
      built.Success? &&
      var r := OffsetSet(built.value, None, Rec(c)).value;
      GetIterator(r) == [(IntKey(0), a), (IntKey(1), b), (IntKey(2), c)]
  {
    BuiltFromZeroOne(a, b);
  }

  /** The array copy of an empty set is empty. */
  lemma EmptyArrayCopy<V>(copy: Record -> V)
    ensures GetArrayCopy(Empty(), copy) == []
  {
  }

  /** Build from `{0: a, 1: b}`, unset key 0: one entry is left, `b` under key 1. */
  lemma UnsetScenario(a: Record, b: Record)
    ensures var built := FromArray([(IntKey(0), Rec(a)), (IntKey(1), Rec(b))]);
      built.Success? &&
      var r := OffsetUnset(built.value, IntKey(0));
      Count(r) == 1 && GetIterator(r) == [(IntKey(1), b)]
  {
  }
}

=== FILE: scalars.dfy ===
/** PHP scalar values and PHP's conversion of them to strings, as `implode` applies it. */
module Scalars {

  /** A column value. PHP floats are not modelled. */
  datatype Scalar = Null | Bool(b: bool) | Int(i: int) | Str(s: string)

  predicate IsDigit(c: char) {
    '0' <= c <= '9'
  }

  function DigitValue(c: char): nat
    requires IsDigit(c)
  {
    (c as int) - ('0' as int)
  }

  function DigitChar(d: nat): (c: char)
    requires d < 10
    ensures IsDigit(c) && DigitValue(c) == d
  {
    (('0' as int) + d) as char
  }

  /** PHP's decimal rendering of a non-negative integer: digits only, no leading zero. */
  function NatToDecimal(n: nat): (s: string)
    ensures |s| > 0
    ensures forall k :: 0 <= k < |s| ==> IsDigit(s[k])
    ensures s[0] == '0' ==> n == 0
    decreases n
  {
    if n < 10 then [DigitChar(n)] else NatToDecimal(n / 10) + [DigitChar(n % 10)]
  }

  /** Reads a string of decimal digits back as a number; the inverse of `NatToDecimal`. */
  function DecimalToNat(s: string): nat
    requires forall k :: 0 <= k < |s| ==> IsDigit(s[k])
  {
    if |s| == 0 then 0 else DecimalToNat(s[..|s| - 1]) * 10 + DigitValue(s[|s| - 1])
  }

  lemma {:induction false} DecimalRoundTrip(n: nat)
    ensures DecimalToNat(NatToDecimal(n)) == n
    decreases n
  {
    if n >= 10 {
      var s := NatToDecimal(n);
      assert s[..|s| - 1] == NatToDecimal(n / 10);
      DecimalRoundTrip(n / 10);
    }
  }

  /** PHP's `(string)` of an integer: an optional minus sign followed by decimal digits. */
  function IntToDecimal(i: int): (s: string)
    ensures |s| > 0
    ensures s[0] == '-' <==> i < 0
    ensures forall k :: 1 <= k < |s| ==> IsDigit(s[k])
    ensures i >= 0 ==> IsDigit(s[0])
  {
    if i < 0 then "-" + NatToDecimal(-i) else NatToDecimal(i)
  }

  /** Distinct integers render as distinct strings. */
  lemma IntToDecimalInjective(i: int, j: int)
    ensures IntToDecimal(i) == IntToDecimal(j) <==> i == j
  {
    if IntToDecimal(i) == IntToDecimal(j) {
      var s := IntToDecimal(i);
      if i < 0 {
        assert NatToDecimal(-i) == s[1..] == NatToDecimal(-j);
        DecimalRoundTrip(-i);
        DecimalRoundTrip(-j);
      } else {
        DecimalRoundTrip(i);
        DecimalRoundTrip(j);
      }
    }
  }

  /** PHP's string conversion of a scalar: null and false become "", true becomes "1". */
  function ToPhpString(v: Scalar): (s: string)
    ensures s == "" <==> v == Null || v == Bool(false) || v == Str("")
  {
    match v
    case Null => ""
    case Bool(b) => if b then "1" else ""
    case Int(i) => IntToDecimal(i)
    case Str(s) => s
  }
}

=== FILE: wrappers.dfy ===
/** Failure-carrying result types used in place of PHP's `false` returns and exceptions. */
module Wrappers {

  /** An optional value: `None` stands for PHP's `false`/`null` "nothing here" results. */
  datatype Option<+T> = None | Some(value: T)

  /** The outcome of an operation that either succeeds with a value or throws. */
  datatype Result<+T, +E> = Success(value: T) | Failure(error: E)
}
